=== FILE: README.md ===
# YT-DLP-GG: the download window's logic in Dafny

YT-DLP-GG is a PySide6 desktop front end for yt-dlp, and all of it lives in
one file, `YT-DLP-GG.py`. Apart from widget layout, its logic has three parts,
and this project models each one:

- **The options translator.** `MainWindow.start_download` first applies three
  guards: a download already running, an empty URL after `strip()`, and no
  output folder. It then builds the yt-dlp options dictionary from the window's
  widgets. The widget values are a `UiSnapshot` record. The dictionary is a
  `YdlOptions` record with one field per key, grouped by the part of the
  handler that writes it. An absent key is `None` or `false`.
- **The worker's signal protocol.** `DownloadWorker.run` wires a `YtLogger` and
  a progress hook into yt-dlp, runs the download, and reports the outcome. It
  always ends with `finished`. The engine is given as the calls it makes into
  the logger and the hook, plus whether `download` returned or raised.
- **The single-flight lifecycle.** The `is_downloading` flag goes up on an
  accepted click and comes down in `download_finished`. The `Session` module
  pairs the window with the signal queues of live workers. It shows that, from
  start-up and for any interleaving of clicks and signal deliveries, at most
  one download is in flight, and the flag says whether one is.

Files:

- `optional.dfy`: `Option`.
- `seqs.dfy`: the associativity of concatenation.
- `text.dfy`: Python's `str.strip` and `str.lower`, and `float` on plain
  decimal text.
- `options.dfy`: the guards and the dictionary.
- `worker.dfy`: `DownloadWorker.run`.
- `window.dfy`: the `MainWindow` slots.
- `session.dfy`: the lifecycle.

Two details of the code that the model keeps:

- On success the worker emits the success log (line 67) before the progress
  step `("Concluído.", 1.0)` (line 68). `Worker.Run` keeps that order.
- `playliststart` is written whenever the start spin box is positive
  (line 405). The box's minimum is 1, so the default range (1, 0) passes
  `playliststart` 1 and no `playlistend`. `Options.PlaylistStartAlwaysSet`
  states this.

## Model

| member | source | states |
|---|---|---|
| `Text.Strip` | YT-DLP-GG.py:346-349 | the stripped URL is the piece of the text between a whitespace prefix and a whitespace suffix; it is empty exactly when every character is Python whitespace, and otherwise neither starts nor ends with whitespace |
| `Text.StripLeft` | YT-DLP-GG.py:346 | the left strip is a suffix of the text, everything dropped is whitespace, and what is kept does not start with whitespace |
| `Text.StripRight` | YT-DLP-GG.py:346 | the right strip is a prefix of the text, everything dropped is whitespace, and what is kept does not end with whitespace |
| `Text.StripIdempotent` | YT-DLP-GG.py:346 | stripping an already stripped URL changes nothing |
| `Text.Lower` | YT-DLP-GG.py:398 | lower-casing keeps the length and every character that is not an upper-case letter, moves each of 'A'-'Z' to its lower-case letter, and leaves no upper-case letter |
| `Text.ParseDecimal` | YT-DLP-GG.py:50 | `float` reads plain decimal text, with surrounding whitespace stripped, to a value that is never negative; an information separator U+001C-U+001F anywhere makes it raise, since `float` neither strips it nor reads it; a run of digits reads as its decimal value |
| `Text.ParseNatText` | YT-DLP-GG.py:50 | the decimal text of a whole number up to 2^53, where every whole number is a double, reads back as that number |
| `Options.Submit` | YT-DLP-GG.py:341-353 | the guards in order: a running download refuses before the fields are read, then a blank URL, then a missing folder; otherwise the run starts with the stripped URL and the translated options |
| `Options.WithNaming` | YT-DLP-GG.py:360-368 | the cookie and filename-policy step writes only the naming keys |
| `Options.WithVideoTab` | YT-DLP-GG.py:373-390 | the Video tab writes only `format`, `merge_output_format` and the subtitle keys |
| `Options.WithAudioTab` | YT-DLP-GG.py:392-400 | the Audio tab writes only `format` and `postprocessors` |
| `Options.WithPlaylistTab` | YT-DLP-GG.py:402-414 | the Playlist tab writes only `outtmpl`, `format`, `postprocessors` and the two bounds |
| `Options.WithTab` | YT-DLP-GG.py:370-414 | no tab touches the naming keys or the global flags |
| `Options.WithGlobalFlags` | YT-DLP-GG.py:416-421 | the metadata and thumbnail step writes only those three keys |
| `Options.Translate` | YT-DLP-GG.py:355-421 | `outtmpl` is the folder with the title template, or the playlist template on the Playlist tab; `cookiefile` is present iff a cookie file was chosen; exactly one of `no_clean_info` and `restrictfilenames`, picked by the restrict box; `addmetadata` iff the metadata box; both thumbnail keys iff the thumbnail box, on every tab; the format per tab and quality; `merge_output_format` only on the Video tab; the three subtitle keys together iff the Video tab and the subtitle box; the audio extractor with the lower-cased format and the bitrate; the playlist bounds only when positive; mp3 extraction without a quality, or best video |
| `Options.FormatTextInjective` | YT-DLP-GG.py:376-381 | the five format expressions are distinct texts |
| `Options.GlobalKeysIgnoreTab` | YT-DLP-GG.py:361-421 | switching tabs never changes the cookie, filename-policy, metadata or thumbnail keys |
| `Options.AudioCodecIsLabel` | YT-DLP-GG.py:396-398 | the lower-cased codec is the audio combo entry unchanged |
| `Options.PlaylistStartAlwaysSet` | YT-DLP-GG.py:402-406 | within the spin boxes' ranges `playliststart` is always passed, and `playlistend` only when the end is not 0 |
| `Worker.RemovePercent` | YT-DLP-GG.py:46 | removing '%' leaves no '%', keeps every other character as often as it occurs, and leaves a text without '%' unchanged |
| `Worker.RemovePercentConcat` | YT-DLP-GG.py:46 | removing '%' from a concatenation is removing it from each part, so the kept characters stay in order |
| `Worker.MissingPercentIsZero` | YT-DLP-GG.py:46 | without a `_percent_str` entry, `pct` is "0" |
| `Worker.MissingPercentReadsZero` | YT-DLP-GG.py:46-50 | without a `_percent_str` entry, `float(pct)` is 0 |
| `Worker.WholePercent` | YT-DLP-GG.py:46-50 | for a report that carries what `float` reads, a whole percentage such as "45%", up to 2^53, parses to its number |
| `Worker.CallEvents` | YT-DLP-GG.py:32-54 | debug messages and unparsable or unknown progress reports emit nothing; a warning emits one "AVISO: " log tagged warning; an error emits one "ERRO: " log tagged error; a finished transfer emits one info log; a downloading report emits one progress step at a hundredth of the percentage; none of these is `finished`, a success log or a failure log |
| `Worker.EngineEvents` | YT-DLP-GG.py:56-65 | the engine's calls emit at most one signal each, never `finished`, never a success or failure log, and log only with the tags info, warning and error; a single call emits exactly that call's signals |
| `Worker.EngineEventsConcat` | YT-DLP-GG.py:56-65 | the signals of two runs of calls are those of the first followed by those of the second |
| `Worker.EngineEventsAt` | YT-DLP-GG.py:56-65 | each call's signals appear in place, after those of every earlier call and before those of every later one |
| `Worker.LoggerCallIsLogged` | YT-DLP-GG.py:36-40 | every warning the engine reports is among the emitted signals as an "AVISO: " log tagged warning, and every error as an "ERRO: " log tagged error |
| `Worker.Epilogue` | YT-DLP-GG.py:66-73 | after the download, a success emits three signals and a failure two; `finished` comes last, and the outcome's log comes first |
| `Worker.Run` | YT-DLP-GG.py:25-73 | `finished` is emitted once, last; on success the only success log comes third from last and is followed by progress ("Concluído.", 1.0); on an exception the only failure log comes just before `finished` and carries the exception text; the engine's own signals come first |
| `MainWindow.Initial` | YT-DLP-GG.py:86 | the window starts with no download, the button enabled and an empty log |
| `MainWindow.Colour` | YT-DLP-GG.py:441-446 | the error, warning, success and info tags get their table colours and any other tag white |
| `MainWindow.Trunc` | YT-DLP-GG.py:439 | Python's `int()` truncates toward zero |
| `MainWindow.SetBar` | YT-DLP-GG.py:439 | the bar takes a value in 0-100 and ignores one outside |
| `MainWindow.StartDownload` | YT-DLP-GG.py:341-427 | a refused click, including any click while downloading, leaves the window unchanged; an accepted one raises the flag, disables the button, shows "Baixando..." and logs the URL in blue |
| `MainWindow.UpdateProgress` | YT-DLP-GG.py:437-439 | the status shows the message; a fraction in [0, 1] sets the bar to its truncated percentage; one at least a hundredth outside leaves the bar alone; nothing else changes |
| `MainWindow.UpdateLog` | YT-DLP-GG.py:441-449 | exactly one line is appended, in the tag's colour; nothing else changes |
| `MainWindow.DownloadFinished` | YT-DLP-GG.py:453-457 | the flag drops, the button is enabled with its idle label, the bar is 0, the status and log are kept |
| `MainWindow.Deliver` | YT-DLP-GG.py:430-432 | a signal reaches its slot: only a log signal adds a line, in its tag's colour; a progress signal shows its message and sets the bar to its truncated percentage when in range; a log signal keeps the status and the bar; only `finished` lowers the flag and restores the button, and it resets the bar to 0 and keeps the status |
| `MainWindow.DeliverAll` | YT-DLP-GG.py:430-432 | after a batch of signals the log has gained the batch's log lines in order; the flag is down and the button idle exactly when the batch held `finished` |
| `MainWindow.DeliverAllConcat` | YT-DLP-GG.py:430-432 | delivering two batches in turn is delivering their concatenation |
| `MainWindow.LogLinesConcat` | YT-DLP-GG.py:448 | log lines distribute over concatenation |
| `MainWindow.EpilogueLogLines` | YT-DLP-GG.py:66-73 | the end of a run writes exactly one log line, the outcome's |
| `MainWindow.RunLogLines` | YT-DLP-GG.py:25-73 | a whole run writes the engine's log lines and then the outcome's line |
| `MainWindow.EpilogueEndsIdle` | YT-DLP-GG.py:66-73 | the end of a run appends the green success line or the red failure line and leaves the window idle with the bar at 0 |
| `MainWindow.RunEndsIdle` | YT-DLP-GG.py:25-73 | a whole run leaves the window idle, its log extended by the engine's lines and the outcome's line; a successful run leaves "Concluído." as the status |
| `MainWindow.StartThenRun` | YT-DLP-GG.py:423-457 | an accepted click followed by its worker's signals leaves the window idle, its log extended by the start line, the engine's lines and the outcome line |
| `Session.Boot` | YT-DLP-GG.py:85-86 | the application starts with no worker and the flag down |
| `Session.Step` | YT-DLP-GG.py:341-435 | a refused click changes nothing; an accepted one changes the window as `start_download` does and adds one worker carrying its run's signals; a delivery hands the worker's oldest pending signal to its slot and removes it from the queue, dropping the worker when its queue empties and leaving every other worker alone; with no pending signal nothing changes |
| `Session.ClickKeepsInv` | YT-DLP-GG.py:342-344 | a click keeps at most one worker alive, with the flag and the button in step |
| `Session.PumpKeepsInv` | YT-DLP-GG.py:453-457 | delivering a signal keeps the invariant; the worker goes away with its `finished` |
| `Session.StepKeepsInv` | YT-DLP-GG.py:424-454 | every action keeps the invariant |
| `Session.ExecuteKeepsInv` | YT-DLP-GG.py:424-454 | every sequence of actions keeps the invariant |
| `Session.AtMostOneDownload` | YT-DLP-GG.py:86 | from start-up at most one download is in flight, and the flag is up exactly while one is |
| `Session.ClickWhileBusy` | YT-DLP-GG.py:342-344 | a click during a download changes nothing |
| `Session.PumpAll` | YT-DLP-GG.py:430-432 | with one worker, one delivery per pending signal hands the window every signal in emission order and leaves no worker |
| `Session.ClickThenDrain` | YT-DLP-GG.py:423-457 | with no worker alive, an accepted click followed by the delivery of its worker's signals leaves no worker and the started window with the whole run delivered: idle, with the start line, the engine's lines and the outcome's line logged |
| `Session.BootClickRun` | YT-DLP-GG.py:85-457 | from start-up, an accepted click and the delivery of its worker's signals leave no worker and an idle window whose log is the start line, the engine's lines and the outcome's line |

## Left out

- Widget construction, layout and style (lines 96-326) are not modelled. The
  widget values that `start_download` reads are fields of `UiSnapshot`, and
  the combo boxes and tabs are enumerations of their entries.
- The file dialogs of `select_output_folder` and `select_cookies`
  (lines 328-339) are OS interaction. Their results are the folder and cookie
  texts of the snapshot. The log line `select_cookies` writes is not modelled.
- The yt-dlp engine, the `threading.Thread` and the inter-thread transport
  of the signals (lines 18-23, 60-65, 434-435) are abstracted. The engine is
  the `Outcome`: its logger and hook calls, and whether it returned or
  raised. The transport is the `Session` queues, delivered in emission order
  per worker. The signal connections at lines 430-432 are modelled by
  `MainWindow.Deliver`. The `logger` and `progress_hooks` entries the worker
  adds to the dictionary are not modelled.
- `os.path.join` is the uninterpreted constructor `Join(folder, template)`.
  Path semantics are not modelled.
- Worker.CallEvents: Python's `float()` is read in the model only on plain
  decimal text (`Text.ParseDecimal`). Each downloading report carries what
  `float` returns for its `pct`: `None` when it raises, and otherwise a
  real number. `Worker.ReadsAsFloat` says that this agrees with
  `Text.ParseDecimal` on plain decimal text, so the value is exact where
  `float` rounds, and finite where `float` gives infinity (see the
  `Text.ParseDecimal` lines). Signs, exponents, "inf", "nan"
  and underscores are left to the report. A missing `_speed_str`/`_eta_str`
  is `Absent`. An entry that holds `None` is `Present("None")`.
- Worker.ParsedPercent is a plain definition: the report's value, or zero
  without a percentage entry. `Worker.MissingPercentReadsZero` derives that
  zero from `'0%'.replace('%', '')`, and `Worker.WholePercent` ties the
  definition to the text for a whole percentage.
- Worker.PercentText and Worker.ProgressLine are plain definitions of `pct`
  (line 46) and of the status message (line 49). Their meaning is stated by
  `Worker.RemovePercent`, `Worker.MissingPercentIsZero` and
  `Worker.CallEvents`.
- Text.ParseDecimal: reads only plain decimal text. It gives `None` for a
  sign, an exponent, "inf", "nan", underscores between digits and non-ASCII
  decimal digits, which `float` accepts.
- Text.ParseDecimal: the value is the exact decimal. Python's `float`
  rounds it to the nearest double, so "9007199254740993" reads as
  9007199254740992.0, and a digit run beyond about 1.8e308 reads as `inf`.
  The round trips `Text.ParseNatText` and `Worker.WholePercent` are stated
  only up to 2^53, where the double is exact.
- Worker.CallEvents: the fraction `float(pct)/100` (line 50) is an exact
  rational in the model. Python computes it in IEEE doubles, which round.
- A progress dictionary without a `status` entry makes the hook raise
  `KeyError` inside the engine (line 44). That is engine behaviour and is not
  modelled; every hook call carries a status.
- MainWindow.UpdateProgress: says nothing about the bar for a fraction in
  (-0.01, 0) or (1, 1.01), where truncation decides. The `OverflowError` that
  PySide raises for a value beyond a C `int` is not modelled.
- MainWindow.UpdateProgress: IEEE double rounding in `float(pct)/100`
  (line 50) and `int(value * 100)` (line 439) is not modelled. The model
  multiplies exact reals, so Python's bar can be one below the model's. For
  "29%", Python computes 0.29 * 100 as 28.999999999999996 and shows 28, where
  the model shows 29.
- The HTML `<span>` wrapping and the auto-scroll of `update_log`
  (lines 448-451) are presentation. A log line is its colour and its text.
- Text.Lower: `str.lower()` is modelled on ASCII letters only. The audio
  combo's entries are ASCII, which is where it is applied.
- The warning boxes of the guards are modal dialogs. They are not window
  state, so `Options.WarningText` gives their text without a contract.
- The `format` and `merge_output_format` values are enumerations.
  `Options.FormatText` and `Options.ContainerText` give their exact strings.

=== FILE: optional.dfy ===
/** A value that may be missing: an absent dictionary key, an absent
    argument, or a conversion that failed. */
module Optional {
  datatype Option<T> = None | Some(value: T)
}

=== FILE: options.dfy ===
/**
 The options translator of `MainWindow.start_download`: the three guards that
 may refuse a click, and the yt-dlp options dictionary built from a snapshot of
 the window's widgets.
 */
module Options {
  import opened Text
  import opened Optional

  /** The active tab of the option panel. */
  datatype Tab = VideoTab | AudioTab | PlaylistTab

  /** Entries of the video quality combo, in display order. */
  datatype VideoQuality = BestQuality | Upto1080 | Upto720 | WorstQuality

  /** Entries of the video container combo ("MP4", "MKV"). */
  datatype VideoContainer = Mp4 | Mkv

  /** Entries of the audio format combo ("mp3", "m4a", "wav", "flac"). */
  datatype AudioFormat = Mp3 | M4a | Wav | Flac

  /** Entries of the audio bitrate combo ("320", "192", "128"). */
  datatype AudioBitrate = Kbps320 | Kbps192 | Kbps128

  /** Entries of the playlist output combo ("MP4", "MP3"). */
  datatype PlaylistFormat = PlaylistVideo | PlaylistAudio

  /** The four check boxes: restrict (safe mode), metadata, subtitles and
      thumbnail. The subtitle and thumbnail boxes sit on the Video tab. */
  datatype CheckBoxes = CheckBoxes(restrict: bool, meta: bool, subs: bool, thumb: bool)

  /** The Video tab's combos. */
  datatype VideoControls = VideoControls(quality: VideoQuality, container: VideoContainer)

  /** The Audio tab's combos. */
  datatype AudioControls = AudioControls(format: AudioFormat, bitrate: AudioBitrate)

  /** The Playlist tab's spin boxes and output combo. */
  datatype PlaylistControls = PlaylistControls(start: int, end: int, format: PlaylistFormat)

  /** The three texts: the URL field as typed, and the folder and cookie file
      chosen earlier through the file dialogs (empty when none was chosen). */
  datatype TextFields = TextFields(url: string, outputFolder: string, cookiesPath: string)

  /** Everything `start_download` reads from the window: the texts, the
      check boxes, the active tab and the controls of each tab. */
  datatype UiSnapshot = UiSnapshot(
    fields: TextFields,
    boxes: CheckBoxes,
    tab: Tab,
    video: VideoControls,
    audio: AudioControls,
    playlist: PlaylistControls)

  /** The spin boxes' ranges: start has minimum 1, end has minimum 0 (meaning
      "to the end"), and both keep Qt's default maximum of 99. */
  predicate SpinRanges(s: UiSnapshot) {
    1 <= s.playlist.start <= 99 && 0 <= s.playlist.end <= 99
  }

  /** `os.path.join(dir, leaf)`, kept symbolic: path semantics are not
      modelled. */
  datatype Path = Join(dir: string, leaf: string)

  /** The `format` expressions the window can write. */
  datatype FormatSpec = BestVideoAudio | Video1080 | Video720 | Worst | BestAudio

  /** The text of each format expression (lines 378-381, 395, 411, 414). */
  function FormatText(f: FormatSpec): string {
    match f
    case BestVideoAudio => "bestvideo+bestaudio/best"
    case Video1080 => "bestvideo[height<=1080]+bestaudio/best[height<=1080]"
    case Video720 => "bestvideo[height<=720]+bestaudio/best[height<=720]"
    case Worst => "worst"
    case BestAudio => "bestaudio/best"
  }

  /** The text of `merge_output_format` for each container (lines 384-385). */
  function ContainerText(c: VideoContainer): string {
    match c
    case Mp4 => "mp4"
    case Mkv => "mkv"
  }

  /** One entry of the `postprocessors` list: an FFmpegExtractAudio step with
      its preferred codec and, when given, its preferred quality. */
  datatype Postprocessor = ExtractAudioStep(codec: string, quality: Option<string>)

  /* The options dictionary, with its keys grouped by the part of
     `start_download` that writes them. `None` (or `false` for a flag) means
     the key is absent; a flag that is `true` is the key set to `True`. */

  /** `cookiefile`, `no_clean_info` and `restrictfilenames`. */
  datatype NamingKeys = NamingKeys(cookiefile: Option<string>, noCleanInfo: bool, restrictFilenames: bool)

  /** `format`, `merge_output_format` and `postprocessors`. */
  datatype FormatKeys = FormatKeys(
    format: Option<FormatSpec>,
    mergeOutputFormat: Option<VideoContainer>,
    postprocessors: Option<seq<Postprocessor>>)

  /** `writesubtitles`, `writeautomaticsub` and `subtitleslangs`. */
  datatype SubtitleKeys = SubtitleKeys(writeSubtitles: bool, writeAutomaticSub: bool, subtitlesLangs: Option<seq<string>>)

  /** `playliststart` and `playlistend`. */
  datatype RangeKeys = RangeKeys(playlistStart: Option<int>, playlistEnd: Option<int>)

  /** `addmetadata`, `writethumbnail` and `embedthumbnail`. */
  datatype FlagKeys = FlagKeys(addMetadata: bool, writeThumbnail: bool, embedThumbnail: bool)

  /** The whole dictionary; `outtmpl` is always present. */
  datatype YdlOptions = YdlOptions(
    outtmpl: Path,
    naming: NamingKeys,
    formats: FormatKeys,
    subtitles: SubtitleKeys,
    range: RangeKeys,
    flags: FlagKeys)

  /** Why a click on the start button was refused. */
  datatype Rejection = AlreadyDownloading | EmptyUrl | NoOutputFolder

  /** The outcome of a click: a refusal, or the stripped URL and the options
      handed to the worker. */
  datatype Submission =
    | Rejected(reason: Rejection)
    | Started(url: string, opts: YdlOptions)

  /** The text of the warning box shown for each refusal. */
  function WarningText(r: Rejection): string {
    match r
    case AlreadyDownloading => "J\U{e1} existe um download em andamento."
    case EmptyUrl => "Por favor, insira uma URL."
    case NoOutputFolder => "Selecione uma pasta de destino."
  }

  const TitleTemplate := "%(title)s.%(ext)s"
  const PlaylistTemplate := "%(playlist_index)s - %(title)s.%(ext)s"

  function AudioLabel(f: AudioFormat): string {
    match f
    case Mp3 => "mp3"
    case M4a => "m4a"
    case Wav => "wav"
    case Flac => "flac"
  }

  function BitrateLabel(b: AudioBitrate): string {
    match b
    case Kbps320 => "320"
    case Kbps192 => "192"
    case Kbps128 => "128"
  }

  /** The dictionary before any key but the output template is written
      (lines 356-358). */
  function BaseOptions(folder: string): YdlOptions {
    YdlOptions(Join(folder, TitleTemplate),
               NamingKeys(None, false, false),
               FormatKeys(None, None, None),
               SubtitleKeys(false, false, None),
               RangeKeys(None, None),
               FlagKeys(false, false, false))
  }

  /** Lines 361-362 and 365-368: the cookie file, when one was chosen, and
      exactly one of the two filename policies. */
  function WithNaming(o: YdlOptions, cookies: string, restrict: bool): (r: YdlOptions)
    ensures r.(naming := o.naming) == o
  {
    var n := o.naming.(cookiefile := if cookies != [] then Some(cookies) else o.naming.cookiefile);
    o.(naming := if !restrict then n.(noCleanInfo := true) else n.(restrictFilenames := true))
  }

  /** Lines 374-381: the quality combo picks the format expression; the
      first entry falls through to the default. */
  function VideoFormatFor(q: VideoQuality): FormatSpec {
    if q == Upto1080 then Video1080
    else if q == Upto720 then Video720
    else if q == WorstQuality then Worst
    else BestVideoAudio
  }

  /** Lines 387-390: the subtitle box adds the three subtitle keys together. */
  function WithSubtitles(o: SubtitleKeys, subs: bool): SubtitleKeys {
    if subs then SubtitleKeys(true, true, Some(["all"])) else o
  }

  /** The Video tab, lines 373-390: the format for the quality, the merge
      container, and the subtitle keys; nothing else is touched. */
  function WithVideoTab(o: YdlOptions, s: UiSnapshot): (r: YdlOptions)
    ensures r.(formats := o.formats, subtitles := o.subtitles) == o
    ensures r.formats.postprocessors == o.formats.postprocessors
  {
    o.(formats := o.formats.(format := Some(VideoFormatFor(s.video.quality)),
                             mergeOutputFormat := Some(s.video.container)),
       subtitles := WithSubtitles(o.subtitles, s.boxes.subs))
  }

  /** The Audio tab, lines 392-400: best audio, extracted to the lower-cased
      format at the selected bitrate; only the format keys are touched. */
  function WithAudioTab(o: YdlOptions, s: UiSnapshot): (r: YdlOptions)
    ensures r.(formats := o.formats) == o
    ensures r.formats.mergeOutputFormat == o.formats.mergeOutputFormat
  {
    var step := ExtractAudioStep(Lower(AudioLabel(s.audio.format)), Some(BitrateLabel(s.audio.bitrate)));
    o.(formats := o.formats.(format := Some(BestAudio), postprocessors := Some([step])))
  }

  /** The Playlist tab, lines 402-414: each bound is passed on only when
      positive, the template gains the playlist index, and the output combo
      picks mp3 extraction or best video. */
  function WithPlaylistTab(o: YdlOptions, s: UiSnapshot): (r: YdlOptions)
    ensures r.(outtmpl := o.outtmpl, formats := o.formats, range := o.range) == o
    ensures r.formats.mergeOutputFormat == o.formats.mergeOutputFormat
  {
    var p := s.playlist;
    var range := RangeKeys(if p.start > 0 then Some(p.start) else o.range.playlistStart,
                           if p.end > 0 then Some(p.end) else o.range.playlistEnd);
    var formats :=
      match p.format
      case PlaylistAudio =>
        o.formats.(format := Some(BestAudio), postprocessors := Some([ExtractAudioStep("mp3", None)]))
      case PlaylistVideo =>
        o.formats.(format := Some(BestVideoAudio));
    o.(outtmpl := Join(s.fields.outputFolder, PlaylistTemplate), formats := formats, range := range)
  }

  /** Lines 370-414: the keys of the active tab; the naming keys and the
      global flags are left alone. */
  function WithTab(o: YdlOptions, s: UiSnapshot): (r: YdlOptions)
    ensures r.naming == o.naming && r.flags == o.flags
  {
    match s.tab
    case VideoTab => WithVideoTab(o, s)
    case AudioTab => WithAudioTab(o, s)
    case PlaylistTab => WithPlaylistTab(o, s)
  }

  /** Lines 417-421: the metadata and thumbnail boxes, whatever the tab. */
  function WithGlobalFlags(o: YdlOptions, meta: bool, thumb: bool): (r: YdlOptions)
    ensures r.(flags := o.flags) == o
  {
    o.(flags := FlagKeys(meta || o.flags.addMetadata,
                         thumb || o.flags.writeThumbnail,
                         thumb || o.flags.embedThumbnail))
  }

  /** The options dictionary assembled after the guards have passed, written
      key by key in the order `start_download` writes them. */
  function Translate(s: UiSnapshot): (o: YdlOptions)
    // output template: the folder joined with the title template, replaced
    // by the playlist-index template on the Playlist tab
    ensures o.outtmpl == Join(s.fields.outputFolder, if s.tab == PlaylistTab then PlaylistTemplate else TitleTemplate)
    // global keys, whatever the tab
    ensures o.naming.cookiefile.Some? <==> s.fields.cookiesPath != []
    ensures o.naming.cookiefile.Some? ==> o.naming.cookiefile.value == s.fields.cookiesPath
    ensures o.naming.restrictFilenames == s.boxes.restrict && o.naming.noCleanInfo == !s.boxes.restrict
    ensures o.flags.addMetadata == s.boxes.meta
    ensures o.flags.writeThumbnail == s.boxes.thumb && o.flags.embedThumbnail == s.boxes.thumb
    // a format expression on every tab
    ensures o.formats.format.Some?
    // Video tab
    ensures s.tab == VideoTab ==>
      o.formats.format.value == match s.video.quality
        case BestQuality => BestVideoAudio
        case Upto1080 => Video1080
        case Upto720 => Video720
        case WorstQuality => Worst
    ensures o.formats.mergeOutputFormat == (if s.tab == VideoTab then Some(s.video.container) else None)
    ensures o.subtitles.writeSubtitles == (s.tab == VideoTab && s.boxes.subs)
    ensures o.subtitles.writeAutomaticSub == o.subtitles.writeSubtitles
    ensures o.subtitles.subtitlesLangs == (if o.subtitles.writeSubtitles then Some(["all"]) else None)
    // Audio tab
    ensures s.tab == AudioTab ==> o.formats.format.value == BestAudio
    ensures o.formats.postprocessors.Some? <==>
      s.tab == AudioTab || (s.tab == PlaylistTab && s.playlist.format == PlaylistAudio)
    ensures s.tab == AudioTab ==>
      o.formats.postprocessors.value ==
        [ExtractAudioStep(Lower(AudioLabel(s.audio.format)), Some(BitrateLabel(s.audio.bitrate)))]
    // Playlist tab
    ensures o.range.playlistStart == (if s.tab == PlaylistTab && s.playlist.start > 0 then Some(s.playlist.start) else None)
    ensures o.range.playlistEnd == (if s.tab == PlaylistTab && s.playlist.end > 0 then Some(s.playlist.end) else None)
    ensures s.tab == PlaylistTab && s.playlist.format == PlaylistAudio ==>
      o.formats.format.value == BestAudio && o.formats.postprocessors.value == [ExtractAudioStep("mp3", None)]
    ensures s.tab == PlaylistTab && s.playlist.format == PlaylistVideo ==>
      o.formats.format.value == BestVideoAudio
  {
    var named := WithNaming(BaseOptions(s.fields.outputFolder), s.fields.cookiesPath, s.boxes.restrict);
    WithGlobalFlags(WithTab(named, s), s.boxes.meta, s.boxes.thumb)
  }

  /** A click on the start button: refused while a download is running
      (before the fields are looked at), then when the stripped URL is empty,
      then when no output folder was chosen; otherwise started with the
      stripped URL and the translated options. */
  function Submit(busy: bool, s: UiSnapshot): (r: Submission)
    ensures busy ==> r == Rejected(AlreadyDownloading)
    ensures !busy && AllSpace(s.fields.url) ==> r == Rejected(EmptyUrl)
    ensures !busy && !AllSpace(s.fields.url) && s.fields.outputFolder == [] ==> r == Rejected(NoOutputFolder)
    ensures r.Started? <==> !busy && !AllSpace(s.fields.url) && s.fields.outputFolder != []
    ensures r.Started? ==> r.url == Strip(s.fields.url) && r.opts == Translate(s)
  {
    if busy then Rejected(AlreadyDownloading)
    else
      var url := Strip(s.fields.url);
      if url == [] then Rejected(EmptyUrl)
      else if s.fields.outputFolder == [] then Rejected(NoOutputFolder)
      else Started(url, Translate(s))
  }

  /** Distinct format expressions have distinct texts, so the enumeration
      loses nothing of the strings the window writes. */
  lemma FormatTextInjective(f: FormatSpec, g: FormatSpec)
    ensures FormatText(f) == FormatText(g) ==> f == g
  {
  }

  /** The tab does not influence the cookie file, the filename policy, or the
      metadata and thumbnail keys. */
  lemma GlobalKeysIgnoreTab(s: UiSnapshot, t: Tab)
    ensures Translate(s).naming == Translate(s.(tab := t)).naming
    ensures Translate(s).flags == Translate(s.(tab := t)).flags
  {
  }

  /** The `.lower()` on the audio format is the identity: the combo entries are
      already lower case, so the codec is the entry as shown. */
  lemma AudioCodecIsLabel(f: AudioFormat)
    ensures Lower(AudioLabel(f)) == AudioLabel(f)
  {
    var l := AudioLabel(f);
    assert forall i :: 0 <= i < |l| ==> !('A' <= l[i] <= 'Z');
  }

  /** Within the spin boxes' ranges the playlist start is always passed on,
      so the default range (1, 0) yields `playliststart` 1 and no
      `playlistend`. */
  lemma PlaylistStartAlwaysSet(s: UiSnapshot)
    requires SpinRanges(s) && s.tab == PlaylistTab
    ensures Translate(s).range.playlistStart == Some(s.playlist.start)
    ensures Translate(s).range.playlistEnd == if s.playlist.end == 0 then None else Some(s.playlist.end)
  {
  }
}

=== FILE: seqs.dfy ===
/** Facts about sequences that the log and signal lists rely on. */
module Seqs {
  /** Concatenation is associative. */
  lemma AppendAssoc<T>(a: seq<T>, b: seq<T>, c: seq<T>)
    ensures (a + b) + c == a + (b + c)
  {
  }
}

=== FILE: session.dfy ===
/**
 The single-flight lifecycle: the window together with the worker threads
 whose signals have not all been delivered yet. The user clicks the start
 button at any moment, and the Qt event loop delivers each worker's signals
 in the order that worker emitted them; which pending signal is delivered
 next is left open.
 */
module Session {
  import opened Options
  import opened Worker
  import opened MainWindow

  /** The window and, per live worker, the signals it has still to deliver. */
  datatype System = System(window: WindowState, workers: seq<seq<Event>>)

  /** A click on the start button with the widget values of the moment (and
      what the engine will do if a worker is started), or the delivery of
      the next pending signal of worker `k`. */
  datatype Action =
    | Click(snapshot: UiSnapshot, outcome: Outcome)
    | Pump(k: nat)

  /** The application after `__init__`: no worker (line 85) and the flag
      down (line 86). */
  function Boot(): (sys: System)
    ensures sys.workers == [] && !sys.window.downloading
  {
    System(Initial(), [])
  }

  /** A click starts a worker exactly when `start_download` accepts it
      (lines 341-435); a delivery runs the slot of the oldest pending signal
      of the worker, removes that signal from its queue, and drops the
      worker once its queue is empty. */
  function Step(sys: System, a: Action): (sys': System)
    ensures a.Click? && StartDownload(sys.window, a.snapshot).1.Rejected? ==> sys' == sys
    ensures a.Click? && StartDownload(sys.window, a.snapshot).1.Started? ==>
      && sys'.window == StartDownload(sys.window, a.snapshot).0
      && sys'.workers == sys.workers + [Run(a.outcome)]
    ensures a.Pump? && !(a.k < |sys.workers| && sys.workers[a.k] != []) ==> sys' == sys
    ensures a.Pump? && a.k < |sys.workers| && sys.workers[a.k] != [] ==>
      var q := sys.workers[a.k];
      && sys'.window == Deliver(sys.window, q[0])
      && (|q| == 1 ==> sys'.workers == sys.workers[..a.k] + sys.workers[a.k + 1..])
      && (|q| > 1 ==>
            && |sys'.workers| == |sys.workers|
            && sys'.workers[a.k] == q[1..]
            && forall j :: 0 <= j < |sys.workers| && j != a.k ==> sys'.workers[j] == sys.workers[j])
  {
    match a
    case Click(s, o) =>
      var (w, sub) := StartDownload(sys.window, s);
      if sub.Started? then System(w, sys.workers + [Run(o)]) else sys
    case Pump(k) =>
      if k < |sys.workers| && sys.workers[k] != [] then
        var q := sys.workers[k];
        var w := Deliver(sys.window, q[0]);
        if |q| == 1 then System(w, sys.workers[..k] + sys.workers[k + 1..])
        else System(w, sys.workers[k := q[1..]])
      else sys
  }

  /** The signals a worker has still to deliver: at least `finished`, which
      comes last and only once. */
  predicate PendingRun(q: seq<Event>) {
    && q != []
    && q[|q| - 1].Finished?
    && forall i :: 0 <= i < |q| - 1 ==> !q[i].Finished?
  }

  /** At most one worker is alive; the flag is up exactly while one is, and
      the button is enabled exactly while none is. */
  predicate Inv(sys: System) {
    && |sys.workers| <= 1
    && (sys.window.downloading <==> |sys.workers| == 1)
    && (sys.window.buttonEnabled <==> !sys.window.downloading)
    && forall i :: 0 <= i < |sys.workers| ==> PendingRun(sys.workers[i])
  }

  /** A click keeps the invariant: it is refused while a worker is alive,
      and an accepted one starts the only worker, whose run ends with a
      single `finished`. */
  lemma ClickKeepsInv(sys: System, s: UiSnapshot, o: Outcome)
    requires Inv(sys)
    ensures Inv(Step(sys, Click(s, o)))
  {
    var (w', sub) := StartDownload(sys.window, s);
    if sub.Started? {
      assert sys.workers == [];
      assert Step(sys, Click(s, o)) == System(w', [Run(o)]);
      assert PendingRun(Run(o));
    }
  }

  /** A delivery keeps the invariant: the last signal of a queue is
      `finished`, which lowers the flag and re-enables the button as the
      worker goes away; every earlier signal leaves both alone. */
  lemma PumpKeepsInv(sys: System, k: nat)
    requires Inv(sys)
    ensures Inv(Step(sys, Pump(k)))
  {
    if k < |sys.workers| && sys.workers[k] != [] {
      var q := sys.workers[k];
      if |q| > 1 {
        assert !q[0].Finished?;
        assert PendingRun(q[1..]) by {
          assert q[1..][|q[1..]| - 1] == q[|q| - 1];
        }
      }
    }
  }

  /** Every step keeps the invariant. */
  lemma StepKeepsInv(sys: System, a: Action)
    requires Inv(sys)
    ensures Inv(Step(sys, a))
  {
    match a
    case Click(s, o) => ClickKeepsInv(sys, s, o);
    case Pump(k) => PumpKeepsInv(sys, k);
  }

  /** The state after a sequence of actions. */
  function Execute(sys: System, acts: seq<Action>): System
    decreases |acts|
  {
    if acts == [] then sys else Execute(Step(sys, acts[0]), acts[1..])
  }

  /** Whatever the user does and in whatever order the signals arrive, the
      invariant holds after every action. */
  lemma {:induction false} ExecuteKeepsInv(sys: System, acts: seq<Action>)
    requires Inv(sys)
    ensures Inv(Execute(sys, acts))
    decreases |acts|
  {
    if acts != [] {
      StepKeepsInv(sys, acts[0]);
      ExecuteKeepsInv(Step(sys, acts[0]), acts[1..]);
    }
  }

  /** From start-up, at most one download is ever in flight, and the flag
      tells whether one is. */
  lemma AtMostOneDownload(acts: seq<Action>)
    ensures |Execute(Boot(), acts).workers| <= 1
    ensures Execute(Boot(), acts).window.downloading <==> |Execute(Boot(), acts).workers| == 1
  {
    ExecuteKeepsInv(Boot(), acts);
  }

  /** `n` deliveries from the first worker. */
  function Pumps(n: nat): (acts: seq<Action>)
    ensures |acts| == n
    ensures forall i :: 0 <= i < n ==> acts[i] == Pump(0)
  {
    if n == 0 then [] else [Pump(0)] + Pumps(n - 1)
  }

  /** With a single worker, one delivery per pending signal hands every
      signal to the window in emission order and leaves no worker. */
  lemma {:induction false} PumpAll(w: WindowState, q: seq<Event>)
    requires q != []
    ensures Execute(System(w, [q]), Pumps(|q|)) == System(DeliverAll(w, q), [])
    decreases |q|
  {
    var acts := Pumps(|q|);
    assert acts[0] == Pump(0) && acts[1..] == Pumps(|q| - 1);
    var w1 := Deliver(w, q[0]);
    if |q| == 1 {
      assert Step(System(w, [q]), Pump(0)) == System(w1, []);
      assert DeliverAll(w, q) == DeliverAll(w1, q[1..]);
    } else {
      assert Step(System(w, [q]), Pump(0)) == System(w1, [q[1..]]);
      PumpAll(w1, q[1..]);
    }
  }

  /** With no worker alive, an accepted click followed by one delivery per
      signal of its worker leaves no worker, and the window is the started
      window with every signal of the run delivered: idle again, with the
      start line, the engine's lines and the outcome's line logged. */
  lemma ClickThenDrain(sys: System, s: UiSnapshot, o: Outcome)
    requires sys.workers == [] && StartDownload(sys.window, s).1.Started?
    ensures var sys' := Execute(sys, [Click(s, o)] + Pumps(|Run(o)|));
      && sys'.workers == []
      && sys'.window == DeliverAll(StartDownload(sys.window, s).0, Run(o))
      && !sys'.window.downloading && sys'.window.buttonEnabled
      && sys'.window.buttonLabel == IdleLabel && sys'.window.bar == 0
      && sys'.window.log == sys.window.log
           + [LogLine(ColourTable["info"], StartPrefix + StartDownload(sys.window, s).1.url)]
           + LogLines(EngineEvents(o.calls)) + [OutcomeLine(o)]
  {
    var acts := [Click(s, o)] + Pumps(|Run(o)|);
    assert acts[0] == Click(s, o) && acts[1..] == Pumps(|Run(o)|);
    var w0 := StartDownload(sys.window, s).0;
    assert Step(sys, Click(s, o)) == System(w0, [Run(o)]);
    assert Execute(sys, acts) == Execute(System(w0, [Run(o)]), Pumps(|Run(o)|));
    PumpAll(w0, Run(o));
    StartThenRun(sys.window, s, o);
  }

  /** From start-up, an accepted click followed by every signal of its
      worker leaves no worker and an idle window whose log holds the start
      line, the engine's lines and the outcome's line. */
  lemma BootClickRun(s: UiSnapshot, o: Outcome)
    requires StartDownload(Initial(), s).1.Started?
    ensures var sys' := Execute(Boot(), [Click(s, o)] + Pumps(|Run(o)|));
      && sys'.workers == []
      && sys'.window == DeliverAll(StartDownload(Initial(), s).0, Run(o))
      && !sys'.window.downloading && sys'.window.buttonEnabled
      && sys'.window.log ==
           [LogLine(ColourTable["info"], StartPrefix + StartDownload(Initial(), s).1.url)]
           + LogLines(EngineEvents(o.calls)) + [OutcomeLine(o)]
  {
    var sys := Boot();
    assert sys.window == Initial() && sys.window.log == [];
    ClickThenDrain(sys, s, o);
    var start := [LogLine(ColourTable["info"], StartPrefix + StartDownload(Initial(), s).1.url)];
    assert sys.window.log + start == start;
  }

  /** A click while a download is in flight is refused and changes nothing. */
  lemma ClickWhileBusy(sys: System, s: UiSnapshot, o: Outcome)
    requires Inv(sys) && |sys.workers| == 1
    ensures Step(sys, Click(s, o)) == sys
  {
  }
}

=== FILE: text.dfy ===
/**
 The Python string behaviour the program relies on: `str.strip()` applied to
 the URL field before it is validated, `str.lower()` applied to the selected
 audio format, and `float()` applied to the percentage text of a progress
 report.
 */
module Text {
  import opened Optional

  /** Python's `str.isspace` for one character: the ASCII separators
      (tab, line feed, vertical tab, form feed, carriage return, the four
      information separators 0x1C-0x1F, space) and the Unicode whitespace
      code points. */
  predicate IsSpace(c: char) {
    var n := c as int;
    || (9 <= n <= 13)
    || (28 <= n <= 32)
    || n == 0x85
    || n == 0xA0
    || n == 0x1680
    || (0x2000 <= n <= 0x200A)
    || n == 0x2028
    || n == 0x2029
    || n == 0x202F
    || n == 0x205F
    || n == 0x3000
  }

  predicate AllSpace(s: string) {
    forall i :: 0 <= i < |s| ==> IsSpace(s[i])
  }

  /** The position of the first non-whitespace character of `s` at or after
      `i`, or `|s|` when there is none. */
  function FirstNonSpace(s: string, i: nat): (k: nat)
    requires i <= |s|
    ensures i <= k <= |s|
    ensures forall j :: i <= j < k ==> IsSpace(s[j])
    ensures k < |s| ==> !IsSpace(s[k])
    decreases |s| - i
  {
    if i < |s| && IsSpace(s[i]) then FirstNonSpace(s, i + 1) else i
  }

  /** The end of the last non-whitespace character of `s` at or before `k`,
      or 0 when there is none. */
  function LastNonSpaceEnd(s: string, k: nat): (e: nat)
    requires k <= |s|
    ensures e <= k
    ensures forall j :: e <= j < k ==> IsSpace(s[j])
    ensures e > 0 ==> !IsSpace(s[e - 1])
  {
    if k > 0 && IsSpace(s[k - 1]) then LastNonSpaceEnd(s, k - 1) else k
  }

  /** Removes leading whitespace: the result is the suffix of `s` that starts
      at the first non-whitespace character. */
  function StripLeft(s: string): (r: string)
    ensures |r| <= |s| && r == s[|s| - |r|..]
    ensures forall i :: 0 <= i < |s| - |r| ==> IsSpace(s[i])
    ensures r != [] ==> !IsSpace(r[0])
  {
    s[FirstNonSpace(s, 0)..]
  }

  /** Removes trailing whitespace: the result is the prefix of `s` that ends
      at the last non-whitespace character. */
  function StripRight(s: string): (r: string)
    ensures |r| <= |s| && r == s[..|r|]
    ensures forall i :: |r| <= i < |s| ==> IsSpace(s[i])
    ensures r != [] ==> !IsSpace(r[|r| - 1])
  {
    s[..LastNonSpaceEnd(s, |s|)]
  }

  /** Python's `s.strip()` with no argument. It is empty exactly when every
      character of `s` is whitespace, and otherwise neither begins nor ends
      with whitespace. It is the piece of `s` between a blank prefix and a
      blank suffix. */
  function Strip(s: string): (r: string)
    ensures |r| <= |s|
    ensures r == [] <==> AllSpace(s)
    ensures r != [] ==> !IsSpace(r[0]) && !IsSpace(r[|r| - 1])
    ensures var a := |s| - |StripLeft(s)|;
      && a + |r| <= |s| && r == s[a..a + |r|]
      && AllSpace(s[..a]) && AllSpace(s[a + |r|..])
  {
    var left := StripLeft(s);
    var r := StripRight(left);
    MiddlePiece(s, left, r);
    r
  }

  /** A suffix of `s` after a blank prefix, cut down to its prefix before a
      blank suffix, is the piece of `s` between two blank runs; it is empty
      only when all of `s` is blank, since a non-empty suffix starts with a
      non-blank. */
  lemma MiddlePiece(s: string, left: string, r: string)
    requires |left| <= |s| && left == s[|s| - |left|..]
    requires forall i :: 0 <= i < |s| - |left| ==> IsSpace(s[i])
    requires left != [] ==> !IsSpace(left[0])
    requires |r| <= |left| && r == left[..|r|]
    requires forall i :: |r| <= i < |left| ==> IsSpace(left[i])
    ensures var a := |s| - |left|;
      && a + |r| <= |s| && r == s[a..a + |r|]
      && AllSpace(s[..a]) && AllSpace(s[a + |r|..])
    ensures r == [] <==> AllSpace(s)
    ensures r != [] ==> !IsSpace(r[0])
  {
    var a := |s| - |left|;
    assert left[|r|..] == s[a + |r|..];
    if r == [] {
      // a blank remainder would start with a blank, so nothing remains
      assert left == [];
    } else {
      assert left[0] == s[a];
    }
  }

  /** Stripping twice is stripping once. */
  lemma StripIdempotent(s: string)
    ensures Strip(Strip(s)) == Strip(s)
  {
    var r := Strip(s);
    if r != [] {
      assert FirstNonSpace(r, 0) == 0;
      assert StripLeft(r) == r;
      assert LastNonSpaceEnd(r, |r|) == |r|;
      assert StripRight(r) == r;
    }
  }

  /** ASCII upper case to lower case; every other character is kept. */
  function LowerChar(c: char): char {
    if 'A' <= c <= 'Z' then (c as int - 'A' as int + 'a' as int) as char else c
  }

  /** Python's `str.lower()` on text whose letters are ASCII. */
  function Lower(s: string): (r: string)
    ensures |r| == |s|
    ensures forall i :: 0 <= i < |s| && !('A' <= s[i] <= 'Z') ==> r[i] == s[i]
    ensures forall i :: 0 <= i < |s| && 'A' <= s[i] <= 'Z' ==> r[i] as int == s[i] as int + 32
    ensures forall i :: 0 <= i < |r| ==> !('A' <= r[i] <= 'Z')
  {
    seq(|s|, i requires 0 <= i < |s| => LowerChar(s[i]))
  }

  predicate IsDigit(c: char) {
    '0' <= c <= '9'
  }

  predicate AllDigits(s: string) {
    forall i :: 0 <= i < |s| ==> IsDigit(s[i])
  }

  /** The value of a run of decimal digits, most significant first. */
  function DigitsValue(s: string): (n: nat)
    requires AllDigits(s)
    ensures |s| == 1 ==> n == s[0] as int - '0' as int
  {
    if s == [] then 0 else DigitsValue(s[..|s| - 1]) * 10 + (s[|s| - 1] as int - '0' as int)
  }

  function Pow10(k: nat): (p: nat)
    ensures p >= 1
  {
    if k == 0 then 1 else 10 * Pow10(k - 1)
  }

  /** The position of the first `c` in `s`, or `|s|` when there is none. */
  function IndexOf(s: string, c: char): (k: nat)
    ensures k <= |s|
    ensures k < |s| ==> s[k] == c
    ensures forall i :: 0 <= i < k ==> s[i] != c
  {
    if s == [] then 0
    else if s[0] == c then 0
    else 1 + IndexOf(s[1..], c)
  }

  /** Digits with at most one '.' among them, and at least one digit: the
      decimal point splits them into a whole part and a fraction. */
  function DecimalValue(t: string): (v: Option<real>)
    ensures v.Some? ==> v.value >= 0.0
    ensures t != [] && AllDigits(t) ==> v == Some(DigitsValue(t) as real)
  {
    var k := IndexOf(t, '.');
    var whole := t[..k];
    var frac := if k < |t| then t[k + 1..] else [];
    if |whole| + |frac| == 0 || !AllDigits(whole) || !AllDigits(frac) then
      assert AllDigits(t) ==> k == |t|;
      None
    else
      assert AllDigits(t) ==> k == |t| && whole == t && frac == [];
      Some(DigitsValue(whole) as real + DigitsValue(frac) as real / Pow10(|frac|) as real)
  }

  /** The four information separators U+001C-U+001F: whitespace to
      `str.isspace`, but not to `float()`, which strips only the ASCII
      blanks (space, tab, line feed, vertical tab, form feed, carriage
      return) and, in a text that is not all ASCII, the non-ASCII
      whitespace. */
  predicate IsInfoSeparator(c: char) {
    0x1C <= c as int <= 0x1F
  }

  predicate HasInfoSeparator(s: string) {
    exists i :: 0 <= i < |s| && IsInfoSeparator(s[i])
  }

  /** Python's `float()` on plain decimal text: surrounding whitespace, then
      digits with at most one '.', and at least one digit. An information
      separator anywhere makes `float` raise: it is neither stripped nor
      part of a number. Other texts give `None` here; `float` accepts some
      of them (a sign, an exponent, "inf", "nan", underscores between
      digits, non-ASCII decimal digits), which this function does not
      read. The value is the exact decimal: `float` rounds it to the
      nearest double, and a value beyond the largest double reads as
      infinity. */
  function ParseDecimal(s: string): (v: Option<real>)
    ensures v.Some? ==> v.value >= 0.0
    ensures HasInfoSeparator(s) ==> v == None
    ensures !HasInfoSeparator(s) && Strip(s) != [] && AllDigits(Strip(s)) ==>
      v == Some(DigitsValue(Strip(s)) as real)
  {
    if HasInfoSeparator(s) then None else DecimalValue(Strip(s))
  }

  /** The decimal text of a natural number, without leading zeros. */
  function NatText(n: nat): (s: string)
    ensures s != [] && AllDigits(s)
    ensures !IsSpace(s[0]) && !IsSpace(s[|s| - 1])
  {
    if n < 10 then [('0' as int + n) as char]
    else NatText(n / 10) + [('0' as int + n % 10) as char]
  }

  /** The digits of a number's decimal text read back as the number. */
  lemma {:induction false} NatTextValue(n: nat)
    ensures DigitsValue(NatText(n)) == n
  {
    if n >= 10 {
      var s := NatText(n);
      assert s[..|s| - 1] == NatText(n / 10);
      NatTextValue(n / 10);
    }
  }

  /** 2^53: every whole number up to it is a double, so `float` reads its
      text exactly. */
  const MaxExactInt := 9007199254740992

  /** `float()` reads the decimal text of a whole number that a double holds
      exactly back as that number. */
  lemma ParseNatText(n: nat)
    requires n <= MaxExactInt
    ensures ParseDecimal(NatText(n)) == Some(n as real)
  {
    var s := NatText(n);
    assert !HasInfoSeparator(s) by {
      forall i | 0 <= i < |s| ensures !IsInfoSeparator(s[i]) {
        assert IsDigit(s[i]);
      }
    }
    assert StripLeft(s) == s;
    assert StripRight(s) == s;
    NatTextValue(n);
  }
}

=== FILE: window.dfy ===
/**
 The handlers of `MainWindow` that change its state: `start_download`
 (through the options translator), and the three slots connected to the
 worker's signals, `update_progress`, `update_log` and `download_finished`.
 The window is reduced to the widget properties those handlers write.
 */
module MainWindow {
  import opened Options
  import opened Worker
  import opened Seqs

  /** One paragraph of the log pane: its colour and its text. */
  datatype LogLine = LogLine(colour: string, text: string)

  /** The state the handlers read and write: the single-flight flag, the
      start button's enabled state and label, the status label, the
      progress bar's value and the log pane. */
  datatype WindowState = WindowState(
    downloading: bool,
    buttonEnabled: bool,
    buttonLabel: string,
    status: string,
    bar: int,
    log: seq<LogLine>)

  const IdleLabel := "INICIAR DOWNLOAD"
  const BusyLabel := "Baixando..."
  const StartPrefix := "Iniciando download de: "

  /** The colour each known log tag is shown in. */
  const ColourTable: map<string, string> :=
    map["error" := "#ef4444", "warning" := "#facc15", "success" := "#22c55e", "info" := "#3b82f6"]

  const DefaultColour := "#ffffff"

  /** The window as `__init__` leaves it: not downloading, the button
      enabled with its idle label, the status "Aguardando...", and the
      progress bar in Qt's reset state, one below its minimum of 0. */
  function Initial(): (w: WindowState)
    ensures !w.downloading && w.buttonEnabled && w.log == []
  {
    WindowState(false, true, IdleLabel, "Aguardando...", -1, [])
  }

  /** `update_log`'s colour choice (lines 441-446): the table's colour for
      a known tag, white for any other. */
  function Colour(tag: string): (c: string)
    ensures tag in ColourTable ==> c == ColourTable[tag]
    ensures tag !in ColourTable ==> c == DefaultColour
  {
    if tag == "error" then "#ef4444"
    else if tag == "warning" then "#facc15"
    else if tag == "success" then "#22c55e"
    else if tag == "info" then "#3b82f6"
    else DefaultColour
  }

  /** Python's `int()` on a float: truncation toward zero. */
  function Trunc(x: real): (n: int)
    ensures x >= 0.0 ==> 0 <= n && n as real <= x < n as real + 1.0
    ensures x < 0.0 ==> n <= 0 && n as real - 1.0 < x <= n as real
  {
    if x >= 0.0 then x.Floor else -((-x).Floor)
  }

  /** `QProgressBar.setValue` with the default range 0-100: a value outside
      the range leaves the bar as it was. */
  function SetBar(bar: int, v: int): (b: int)
    ensures 0 <= v <= 100 ==> b == v
    ensures !(0 <= v <= 100) ==> b == bar
  {
    if 0 <= v <= 100 then v else bar
  }

  /** A click on the start button (lines 341-426). A refused click changes
      nothing in the window (the warning box is modal and is not state); an
      accepted one raises the single-flight flag, disables the button and
      logs the URL in the info colour. The second component says what
      `start_download` decided. */
  function StartDownload(w: WindowState, s: UiSnapshot): (r: (WindowState, Submission))
    ensures r.1 == Submit(w.downloading, s)
    ensures w.downloading ==> r.1 == Rejected(AlreadyDownloading)
    ensures r.1.Rejected? ==> r.0 == w
    ensures r.1.Started? ==>
      && r.0.downloading && !r.0.buttonEnabled && r.0.buttonLabel == BusyLabel
      && r.0.status == w.status && r.0.bar == w.bar
      && r.0.log == w.log + [LogLine(ColourTable["info"], StartPrefix + r.1.url)]
  {
    var sub := Submit(w.downloading, s);
    match sub
    case Rejected(_) => (w, sub)
    case Started(url, _) =>
      (w.(downloading := true, buttonEnabled := false, buttonLabel := BusyLabel,
          log := w.log + [LogLine("#3b82f6", StartPrefix + url)]), sub)
  }

  /** `update_progress` (lines 437-439): the message goes to the status
      label and the truncated percentage to the bar. A fraction in [0, 1]
      lands in the bar; one at least a hundredth outside that range is
      ignored by the bar, while one just below 0 truncates to 0. */
  function UpdateProgress(w: WindowState, msg: string, value: real): (w': WindowState)
    ensures w'.(status := w.status, bar := w.bar) == w
    ensures w'.status == msg
    ensures 0.0 <= value <= 1.0 ==> 0 <= w'.bar <= 100 && w'.bar as real <= value * 100.0 < w'.bar as real + 1.0
    ensures value <= -0.01 || value >= 1.01 ==> w'.bar == w.bar
  {
    w.(status := msg, bar := SetBar(w.bar, Trunc(value * 100.0)))
  }

  /** `update_log` (lines 441-449): the message is appended in its tag's
      colour. */
  function UpdateLog(w: WindowState, msg: string, tag: string): (w': WindowState)
    ensures w'.(log := w.log) == w
    ensures w'.log == w.log + [LogLine(Colour(tag), msg)]
  {
    w.(log := w.log + [LogLine(Colour(tag), msg)])
  }

  /** `download_finished` (lines 453-457): the flag drops, the button is
      re-enabled with its idle label, and the bar returns to 0. */
  function DownloadFinished(w: WindowState): (w': WindowState)
    ensures !w'.downloading && w'.buttonEnabled && w'.buttonLabel == IdleLabel && w'.bar == 0
    ensures w'.status == w.status && w'.log == w.log
  {
    w.(downloading := false, buttonEnabled := true, buttonLabel := IdleLabel, bar := 0)
  }

  /** The line a signal adds to the log pane: one for a log signal, none
      for the others. */
  function LineOf(e: Event): seq<LogLine> {
    if e.Log? then [LogLine(Colour(e.tag), e.text)] else []
  }

  /** One worker signal delivered to the slot it is connected to
      (lines 430-432): only a log signal writes the log pane, only a
      progress signal writes the status label, and only `finished` touches
      the flag and the button; the bar takes a progress signal's truncated
      percentage when it is in range, and `finished` resets it to 0. */
  function Deliver(w: WindowState, e: Event): (w': WindowState)
    ensures w'.log == w.log + LineOf(e)
    ensures w'.downloading == (w.downloading && !e.Finished?)
    ensures w'.buttonEnabled == (w.buttonEnabled || e.Finished?)
    ensures w'.buttonLabel == if e.Finished? then IdleLabel else w.buttonLabel
    ensures e.Progress? ==>
      w'.status == e.message && w'.bar == SetBar(w.bar, Trunc(e.fraction * 100.0))
    ensures e.Log? ==> w'.status == w.status && w'.bar == w.bar
    ensures e.Finished? ==> w'.status == w.status && w'.bar == 0
  {
    match e
    case Progress(msg, value) => UpdateProgress(w, msg, value)
    case Log(msg, tag) => UpdateLog(w, msg, tag)
    case Finished => DownloadFinished(w)
  }

  /** The log lines a sequence of signals appends, in order. */
  function LogLines(es: seq<Event>): seq<LogLine> {
    if es == [] then [] else LineOf(es[0]) + LogLines(es[1..])
  }

  /** Signals delivered one after another, in emission order. Only the log
      signals write the log pane, and only `finished` lowers the flag and
      re-enables the button. */
  function DeliverAll(w: WindowState, es: seq<Event>): (w': WindowState)
    ensures w'.log == w.log + LogLines(es)
    ensures w'.downloading == (w.downloading && Finished !in es)
    ensures w'.buttonEnabled == (w.buttonEnabled || Finished in es)
    ensures w'.buttonLabel == if Finished in es then IdleLabel else w.buttonLabel
    decreases |es|
  {
    if es == [] then w
    else
      var w1 := Deliver(w, es[0]);
      var r := DeliverAll(w1, es[1..]);
      DeliverFirstLog(w, es, w1, r);
      DeliverFirstFlags(w, es, w1, r);
      r
  }

  /** The step of `DeliverAll` for the log: the first signal's line, then
      the lines of the rest, are the lines of the whole batch. */
  lemma DeliverFirstLog(w: WindowState, es: seq<Event>, w1: WindowState, r: WindowState)
    requires es != []
    requires w1.log == w.log + LineOf(es[0])
    requires r.log == w1.log + LogLines(es[1..])
    ensures r.log == w.log + LogLines(es)
  {
    var first, rest := LineOf(es[0]), LogLines(es[1..]);
    assert LogLines(es) == first + rest;
    AppendAssoc(w.log, first, rest);
  }

  /** The step of `DeliverAll` for the flag and the button: the first
      signal's effect composed with the effect of the rest is the effect of
      the whole batch. */
  lemma DeliverFirstFlags(w: WindowState, es: seq<Event>, w1: WindowState, r: WindowState)
    requires es != []
    requires w1.downloading == (w.downloading && !es[0].Finished?)
    requires w1.buttonEnabled == (w.buttonEnabled || es[0].Finished?)
    requires w1.buttonLabel == if es[0].Finished? then IdleLabel else w.buttonLabel
    requires r.downloading == (w1.downloading && Finished !in es[1..])
    requires r.buttonEnabled == (w1.buttonEnabled || Finished in es[1..])
    requires r.buttonLabel == if Finished in es[1..] then IdleLabel else w1.buttonLabel
    ensures r.downloading == (w.downloading && Finished !in es)
    ensures r.buttonEnabled == (w.buttonEnabled || Finished in es)
    ensures r.buttonLabel == if Finished in es then IdleLabel else w.buttonLabel
  {
    FinishedInCons(es);
  }

  /** A batch holds `finished` exactly when its first signal is `finished`
      or the rest holds it. */
  lemma FinishedInCons(es: seq<Event>)
    requires es != []
    ensures (Finished in es) == (es[0].Finished? || Finished in es[1..])
  {
    assert es == [es[0]] + es[1..];
  }

  /** Delivering two batches one after the other is delivering their
      concatenation. */
  lemma {:induction false} DeliverAllConcat(w: WindowState, a: seq<Event>, b: seq<Event>)
    ensures DeliverAll(w, a + b) == DeliverAll(DeliverAll(w, a), b)
    decreases |a|
  {
    if a == [] {
      assert a + b == b;
    } else {
      assert (a + b)[0] == a[0];
      assert (a + b)[1..] == a[1..] + b;
      DeliverAllConcat(Deliver(w, a[0]), a[1..], b);
    }
  }

  /** The log lines of a concatenation are the concatenation of the log
      lines. */
  lemma {:induction false} LogLinesConcat(a: seq<Event>, b: seq<Event>)
    ensures LogLines(a + b) == LogLines(a) + LogLines(b)
  {
    if a == [] {
      assert a + b == b;
    } else {
      assert (a + b)[0] == a[0];
      assert (a + b)[1..] == a[1..] + b;
      LogLinesConcat(a[1..], b);
    }
  }

  /** The log line a run's outcome ends with: the success message in the
      success colour, or the failure prefix and the exception text in the
      error colour. */
  function OutcomeLine(o: Outcome): LogLine {
    match o
    case Completed(_) => LogLine(ColourTable["success"], SuccessText)
    case Raised(_, err) => LogLine(ColourTable["error"], FailurePrefix + err)
  }

  /** The log lines of a whole run: the engine's lines, then the outcome's
      line. */
  lemma RunLogLines(o: Outcome)
    ensures LogLines(Run(o)) == LogLines(EngineEvents(o.calls)) + [OutcomeLine(o)]
  {
    var engine := EngineEvents(o.calls);
    assert Run(o) == engine + Epilogue(o);
    LogLinesConcat(engine, Epilogue(o));
    EpilogueLogLines(o);
  }

  /** The end of a run writes exactly the outcome's line. */
  lemma EpilogueLogLines(o: Outcome)
    ensures LogLines(Epilogue(o)) == [OutcomeLine(o)]
  {
    var e := Epilogue(o);
    assert LogLines([Finished]) == [];
    match o
    case Completed(_) =>
      assert e[1..][1..] == [Finished];
      assert LogLines(e[1..]) == [];
    case Raised(_, _) =>
      assert e[1..] == [Finished];
  }

  /** Delivering every signal of a worker run leaves the window idle: the
      flag down, the button enabled with its idle label and the bar at 0.
      The log gains the engine's lines and then the outcome's line, and a
      successful run leaves "Concluído." as the status. */
  lemma RunEndsIdle(w: WindowState, o: Outcome)
    ensures var w' := DeliverAll(w, Run(o));
      && !w'.downloading && w'.buttonEnabled && w'.buttonLabel == IdleLabel && w'.bar == 0
      && w'.log == w.log + LogLines(EngineEvents(o.calls)) + [OutcomeLine(o)]
      && (o.Completed? ==> w'.status == FinalStatus)
  {
    var engine := EngineEvents(o.calls);
    assert Run(o) == engine + Epilogue(o);
    DeliverAllConcat(w, engine, Epilogue(o));
    EpilogueEndsIdle(DeliverAll(w, engine), o);
  }

  /** The epilogue alone: the outcome's line, then the idle window. */
  lemma EpilogueEndsIdle(w: WindowState, o: Outcome)
    ensures var w' := DeliverAll(w, Epilogue(o));
      && !w'.downloading && w'.buttonEnabled && w'.buttonLabel == IdleLabel && w'.bar == 0
      && w'.log == w.log + [OutcomeLine(o)]
      && (o.Completed? ==> w'.status == FinalStatus)
  {
    match o
    case Completed(_) =>
      var w1 := UpdateLog(w, SuccessText, "success");
      var w2 := UpdateProgress(w1, FinalStatus, 1.0);
      assert DeliverAll(w, Epilogue(o)) == DeliverAll(w2, [Finished]);
      assert DeliverAll(w2, [Finished]) == DownloadFinished(w2);
    case Raised(_, err) =>
      var w1 := UpdateLog(w, FailurePrefix + err, "error");
      assert DeliverAll(w, Epilogue(o)) == DeliverAll(w1, [Finished]);
      assert DeliverAll(w1, [Finished]) == DownloadFinished(w1);
  }

  /** A started download followed by every signal of its worker returns the
      window to idle, with the start line, the engine's lines and the
      outcome's line appended to the log. */
  lemma StartThenRun(w: WindowState, s: UiSnapshot, o: Outcome)
    requires StartDownload(w, s).1.Started?
    ensures var w' := DeliverAll(StartDownload(w, s).0, Run(o));
      && !w'.downloading && w'.buttonEnabled && w'.buttonLabel == IdleLabel && w'.bar == 0
      && w'.log == w.log + [LogLine(ColourTable["info"], StartPrefix + StartDownload(w, s).1.url)]
                 + LogLines(EngineEvents(o.calls)) + [OutcomeLine(o)]
  {
    RunEndsIdle(StartDownload(w, s).0, o);
  }
}

=== FILE: worker.dfy ===
/**
 `DownloadWorker.run`: the signals a download thread emits. The yt-dlp engine
 itself is not modelled; what it does is given as the list of calls it makes
 into the worker's logger and progress hook, and whether `download` returned
 or raised.
 */
module Worker {
  import opened Optional
  import opened Text
  import opened Seqs

  /** One signal of `WorkerSignals`: `progress(message, fraction)`,
      `log(message, tag)` or `finished()`. */
  datatype Event =
    | Progress(message: string, fraction: real)
    | Log(text: string, tag: string)
    | Finished

  /** A string entry of the hook's progress dictionary, when present. */
  datatype Field = Present(text: string) | Absent

  /** The `status` of a progress dictionary. A `downloading` one carries its
      three display strings and what Python's `float` makes of the
      percentage text once its '%' signs are removed (`None` when it
      raises). */
  datatype HookStatus =
    | Downloading(percent: Field, speed: Field, eta: Field, parsed: Option<real>)
    | DownloadDone
    | OtherStatus

  /** A call the engine makes into the worker during `download`: one of the
      three logger methods, or the progress hook. */
  datatype EngineCall =
    | DebugCall(msg: string)
    | WarningCall(msg: string)
    | ErrorCall(msg: string)
    | HookCall(status: HookStatus)

  /** How `ydl.download` ended: it returned after making its calls, or it
      raised an exception with the given text after making them. */
  datatype Outcome =
    | Completed(calls: seq<EngineCall>)
    | Raised(calls: seq<EngineCall>, error: string)

  const WarningPrefix := "AVISO: "
  const ErrorPrefix := "ERRO: "
  const FailurePrefix := "Falha no download: "
  const DoneText := "Download conclu\U{ed}do. Processando convers\U{e3}o..."
  const SuccessText := "Processo finalizado com sucesso!"
  const FinalStatus := "Conclu\U{ed}do."

  /** A log signal whose text begins with the failure prefix of the
      `except` clause. */
  predicate IsFailureLog(e: Event) {
    e.Log? && |FailurePrefix| <= |e.text| && e.text[..|FailurePrefix|] == FailurePrefix
  }

  /** A log signal tagged "success". */
  predicate IsSuccessLog(e: Event) {
    e.Log? && e.tag == "success"
  }

  /** `s.replace('%', '')`: every percent sign removed, every other
      character kept in order. */
  function RemovePercent(s: string): (r: string)
    ensures forall i :: 0 <= i < |r| ==> r[i] != '%'
    ensures multiset(r) == multiset(s)['%' := 0]
    ensures (forall i :: 0 <= i < |s| ==> s[i] != '%') ==> r == s
  {
    if s == [] then []
    else
      assert s == [s[0]] + s[1..];
      if s[0] == '%' then RemovePercent(s[1..])
      else [s[0]] + RemovePercent(s[1..])
  }

  /** Removing the percent signs of two texts one after the other is
      removing them from the whole: the kept characters stay in order. */
  lemma {:induction false} RemovePercentConcat(a: string, b: string)
    ensures RemovePercent(a + b) == RemovePercent(a) + RemovePercent(b)
  {
    if a == [] {
      assert a + b == b;
    } else {
      assert (a + b)[0] == a[0];
      assert (a + b)[1..] == a[1..] + b;
      RemovePercentConcat(a[1..], b);
    }
  }

  /** `d.get(key, default)` on a string entry. */
  function FieldOr(f: Field, default: string): string {
    match f
    case Present(t) => t
    case Absent => default
  }

  /** `pct` of a `downloading` callback (line 46): the percentage text, "0%"
      when the entry is missing, without its percent signs. */
  function PercentText(percent: Field): string {
    RemovePercent(FieldOr(percent, "0%"))
  }

  /** Without a percentage entry `pct` is "0". */
  lemma MissingPercentIsZero()
    ensures PercentText(Absent) == "0"
  {
    assert "0%" == ['0'] + ['%'];
    RemovePercentConcat(['0'], ['%']);
  }

  /** The status line of a `downloading` callback: percentage, speed and ETA
      separated by bars (line 49). */
  function ProgressLine(percent: Field, speed: Field, eta: Field): string {
    PercentText(percent) + "% | " + FieldOr(speed, "N/A") + " | ETA: " + FieldOr(eta, "N/A")
  }

  /** The signals one engine call produces: `YtLogger` (lines 32-40) drops
      debug messages and prefixes warnings and errors; `progress_hook`
      (lines 43-54) reports a downloading step when its percentage parses,
      and logs the end of the transfer. */
  function CallEvents(c: EngineCall): (es: seq<Event>)
    ensures |es| <= 1
    ensures es == [] <==>
      c.DebugCall? || (c.HookCall? && (c.status.OtherStatus? || (c.status.Downloading? && ParsedPercent(c.status).None?)))
    ensures c.WarningCall? ==> es == [Log(WarningPrefix + c.msg, "warning")]
    ensures c.ErrorCall? ==> es == [Log(ErrorPrefix + c.msg, "error")]
    ensures c.HookCall? && c.status.DownloadDone? ==> es == [Log(DoneText, "info")]
    ensures c.HookCall? && c.status.Downloading? && ParsedPercent(c.status).Some? ==>
      es == [Progress(ProgressLine(c.status.percent, c.status.speed, c.status.eta),
                      ParsedPercent(c.status).value / 100.0)]
    ensures forall i :: 0 <= i < |es| ==> !es[i].Finished? && !IsFailureLog(es[i]) && !IsSuccessLog(es[i])
  {
    match c
    case DebugCall(_) => []
    case WarningCall(m) =>
      assert (WarningPrefix + m)[0] == 'A';
      [Log(WarningPrefix + m, "warning")]
    case ErrorCall(m) =>
      assert (ErrorPrefix + m)[0] == 'E';
      [Log(ErrorPrefix + m, "error")]
    case HookCall(status) =>
      match status
      case Downloading(percent, speed, eta, _) =>
        (match ParsedPercent(status)
         case Some(v) => [Progress(ProgressLine(percent, speed, eta), v / 100.0)]
         case None => [])
      case DownloadDone =>
        assert DoneText[0] == 'D';
        [Log(DoneText, "info")]
      case OtherStatus => []
  }

  /** What `float(pct)` gives for a downloading callback (line 50): the
      value the report carries for its percentage text, and for a report
      without one the zero that `float` reads from "0"
      (`MissingPercentReadsZero`). */
  function ParsedPercent(st: HookStatus): (v: Option<real>)
    requires st.Downloading?
    ensures st.percent.Absent? ==> v == Some(0.0)
    ensures st.percent.Present? ==> v == st.parsed
  {
    if st.percent.Absent? then Some(0.0) else st.parsed
  }

  /** Without a percentage entry `float` reads "0" as zero. */
  lemma MissingPercentReadsZero()
    ensures ParseDecimal(PercentText(Absent)) == Some(0.0)
  {
    MissingPercentIsZero();
    assert "0" == NatText(0);
    ParseNatText(0);
  }

  /** A report whose value is what `float` makes of its percentage text,
      as far as that text is plain decimal. */
  predicate ReadsAsFloat(st: HookStatus)
    requires st.Downloading?
  {
    st.percent.Present? && ParseDecimal(PercentText(st.percent)).Some? ==>
      st.parsed == ParseDecimal(PercentText(st.percent))
  }

  /** A whole percentage such as "45%" reads as its number. */
  lemma WholePercent(st: HookStatus, n: nat)
    requires n <= MaxExactInt
    requires st.Downloading? && ReadsAsFloat(st)
    requires st.percent == Present(NatText(n) + "%")
    ensures ParsedPercent(st) == Some(n as real)
  {
    var digits := NatText(n);
    RemovePercentConcat(digits, "%");
    assert RemovePercent("%") == [];
    assert forall i :: 0 <= i < |digits| ==> digits[i] != '%' by {
      forall i | 0 <= i < |digits| ensures digits[i] != '%' {
        assert IsDigit(digits[i]);
      }
    }
    assert PercentText(st.percent) == digits;
    ParseNatText(n);
  }

  /** The signals of all engine calls, in call order. */
  function EngineEvents(calls: seq<EngineCall>): (es: seq<Event>)
    ensures |es| <= |calls|
    ensures forall i :: 0 <= i < |es| ==> !es[i].Finished?
    ensures forall i :: 0 <= i < |es| ==> !IsFailureLog(es[i]) && !IsSuccessLog(es[i])
    ensures forall i :: 0 <= i < |es| && es[i].Log? ==> es[i].tag in {"info", "warning", "error"}
    ensures |calls| == 1 ==> es == CallEvents(calls[0])
  {
    if calls == [] then [] else CallEvents(calls[0]) + EngineEvents(calls[1..])
  }

  /** The signals of two runs of calls, one after the other, are the
      signals of the first run followed by those of the second. */
  lemma {:induction false} EngineEventsConcat(a: seq<EngineCall>, b: seq<EngineCall>)
    ensures EngineEvents(a + b) == EngineEvents(a) + EngineEvents(b)
  {
    if a == [] {
      assert a + b == b;
    } else {
      assert (a + b)[0] == a[0];
      assert (a + b)[1..] == a[1..] + b;
      EngineEventsConcat(a[1..], b);
    }
  }

  /** Every call's signals appear in place: after those of the calls
      before it and before those of the calls after it. */
  lemma EngineEventsAt(calls: seq<EngineCall>, i: nat)
    requires i < |calls|
    ensures EngineEvents(calls) ==
      EngineEvents(calls[..i]) + CallEvents(calls[i]) + EngineEvents(calls[i + 1..])
  {
    var before, one, after := calls[..i], [calls[i]], calls[i + 1..];
    assert calls == before + (one + after);
    EngineEventsConcat(before, one + after);
    EngineEventsConcat(one, after);
    assert EngineEvents(one) == CallEvents(calls[i]);
    AppendAssoc(EngineEvents(before), CallEvents(calls[i]), EngineEvents(after));
  }

  /** A warning the engine reports during the download reaches the log as
      an "AVISO: " line tagged warning, and an error as an "ERRO: " line
      tagged error. */
  lemma LoggerCallIsLogged(calls: seq<EngineCall>, i: nat)
    requires i < |calls| && (calls[i].WarningCall? || calls[i].ErrorCall?)
    ensures calls[i].WarningCall? ==> Log(WarningPrefix + calls[i].msg, "warning") in EngineEvents(calls)
    ensures calls[i].ErrorCall? ==> Log(ErrorPrefix + calls[i].msg, "error") in EngineEvents(calls)
  {
    EngineEventsAt(calls, i);
    var before := EngineEvents(calls[..i]);
    assert EngineEvents(calls)[|before|] == CallEvents(calls[i])[0];
  }

  /** What `run` emits once `download` has ended (lines 67-73): the success
      log and the final progress step, or the failure log; then `finished`
      from the `finally` clause. */
  function Epilogue(o: Outcome): (e: seq<Event>)
    ensures |e| == if o.Completed? then 3 else 2
    ensures forall i :: 0 <= i < |e| ==> (e[i].Finished? <==> i == |e| - 1)
    ensures forall i :: 0 <= i < |e| ==> (IsSuccessLog(e[i]) <==> o.Completed? && i == 0)
    ensures forall i :: 0 <= i < |e| ==> (IsFailureLog(e[i]) <==> o.Raised? && i == 0)
  {
    assert SuccessText[..|FailurePrefix|][0] == 'P';
    match o
    case Completed(_) => [Log(SuccessText, "success"), Progress(FinalStatus, 1.0), Finished]
    case Raised(_, err) => [Log(FailurePrefix + err, "error"), Finished]
  }

  /** `DownloadWorker.run` (lines 25-73): the engine's signals, then either
      the success log and the final progress step, or the failure log; the
      `finally` clause ends every run with `finished`. */
  function Run(o: Outcome): (es: seq<Event>)
    ensures |es| == |EngineEvents(o.calls)| + (if o.Completed? then 3 else 2)
    ensures forall i :: 0 <= i < |es| ==> (es[i].Finished? <==> i == |es| - 1)
    ensures forall i :: 0 <= i < |es| ==> (IsSuccessLog(es[i]) <==> o.Completed? && i == |es| - 3)
    ensures forall i :: 0 <= i < |es| ==> (IsFailureLog(es[i]) <==> o.Raised? && i == |es| - 2)
    ensures o.Completed? ==>
      es[|es| - 3] == Log(SuccessText, "success") && es[|es| - 2] == Progress(FinalStatus, 1.0)
    ensures o.Raised? ==> es[|es| - 2] == Log(FailurePrefix + o.error, "error")
    ensures es[..|es| - 1 - (if o.Completed? then 2 else 1)] == EngineEvents(o.calls)
  {
    var engine := EngineEvents(o.calls);
    var tail := Epilogue(o);
    AppendTail(engine, tail, o.Completed?);
    engine + tail
  }

  /** Signals without `finished` or an outcome log, followed by a tail that
      holds `finished` last and its outcome log first: in the whole, both
      keep their places counted from the end. */
  lemma AppendTail(engine: seq<Event>, tail: seq<Event>, completed: bool)
    requires forall i :: 0 <= i < |engine| ==> !engine[i].Finished?
    requires forall i :: 0 <= i < |engine| ==> !IsFailureLog(engine[i]) && !IsSuccessLog(engine[i])
    requires |tail| == if completed then 3 else 2
    requires forall i :: 0 <= i < |tail| ==> (tail[i].Finished? <==> i == |tail| - 1)
    requires forall i :: 0 <= i < |tail| ==> (IsSuccessLog(tail[i]) <==> completed && i == 0)
    requires forall i :: 0 <= i < |tail| ==> (IsFailureLog(tail[i]) <==> !completed && i == 0)
    ensures var es := engine + tail;
      && (forall i :: 0 <= i < |es| ==> (es[i].Finished? <==> i == |es| - 1))
      && (forall i :: 0 <= i < |es| ==> (IsSuccessLog(es[i]) <==> completed && i == |es| - |tail|))
      && (forall i :: 0 <= i < |es| ==> (IsFailureLog(es[i]) <==> !completed && i == |es| - |tail|))
  {
    var es := engine + tail;
    forall i | 0 <= i < |es|
      ensures es[i].Finished? <==> i == |es| - 1
      ensures IsSuccessLog(es[i]) <==> completed && i == |es| - |tail|
      ensures IsFailureLog(es[i]) <==> !completed && i == |es| - |tail|
    {
      if i < |engine| {
        assert es[i] == engine[i];
      } else {
        assert es[i] == tail[i - |engine|];
      }
    }
  }
}
